=== FILE: README.md ===
# Token manager: a verified model of the token table

`manage-tokens.php` is an interactive terminal tool that keeps a table of access tokens. The table maps each
token string to a record `{expire, nameClient}`. The tool lists, adds, removes, updates and bulk-expires
tokens, and it shows statistics. This project models the core under the menu and the file handling:

- the rule that decides whether a timestamp has passed. A stored value above `9999999999` is read as
  milliseconds and truncated to seconds. The date formatter detects the scale with the same rule.
- the redacted form a token is listed under: the first 16 characters, then `...`, then the last 8.
- the four operations that change the table by reference (add, remove, update, clean expired), and the
  statistics count.

Module `ManageTokens` (file `manage_tokens.dfy`) holds everything; `Wrappers` supplies `Option`.
Each operation has two members:

- a pure specification function (`AddResult`, `RemoveResult`, `UpdateResult`, `CleanResult`). It returns a
  `Step(outcome, table)`. The outcome names the message the tool prints: success, cancelled, not found, a
  validation error, or a silent no-op.
- a method of the class `TokenStore`. It changes the store's `tokens` field step by step, as the source does
  to its `&$tokens` array, and is proved to end in the state that the function describes.

Every operator answer is a parameter. So are the current time `now` and the generated token:

- A days answer is `Option<int>`: `None` when `is_numeric` rejects it, otherwise the integer `(int)` casts it to.
- The update menu's answer is `Option<real>`: the number PHP reads from it. PHP's `switch` compares loosely, so
  "01", "1.0" and "1e0" all select case `'1'`.
- PHP's `empty()` on a string is `s == "" || s == "0"`.

Where the code does something an operator might not expect, the model follows the code:

- Days may be negative. `is_numeric` accepts "-5", so a token can be added already expired.
- A token of at most 24 characters is listed in full, in two pieces (`RedactionRevealsShortTokens`).
- A client name "0" counts as missing, because PHP's `empty("0")` is true.
- An expiry in milliseconds is extended by `d * 86400` milliseconds, not by `d` days (`ExtendingMillisecondExpiry`).
- An add whose expiry passes the ten-digit limit is read back as milliseconds, so it lists as expired at once
  (`FarFutureTokenReadsExpired`).

## Model

| member | source | states |
|---|---|---|
| `ManageTokens.IsExpired` | manage-tokens.php:108-115 | Up to 9999999999 a timestamp is expired iff it is below `now`. Above that it is read as milliseconds: expired iff below `1000 * now`. |
| `ManageTokens.DisplayScale` | manage-tokens.php:100-106 | The millisecond note appears iff the timestamp exceeds 9999999999. The displayed second is then the truncated thousandth; otherwise it is the value itself. |
| `ManageTokens.SameScaleRule` | manage-tokens.php:100-115 | The expiry test and the date formatter read every timestamp on the same scale. |
| `ManageTokens.ScaleThreshold` | manage-tokens.php:102-112 | 9999999999 is not scaled; 10000000000 is scaled to 10000000. |
| `ManageTokens.ScaleDiscontinuity` | manage-tokens.php:111-114 | At any present time, one unit past the limit reads as expired while the limit itself does not. |
| `ManageTokens.ExpiryIsPermanent` | manage-tokens.php:108-115 | A timestamp expired at `now` stays expired at every later time. |
| `ManageTokens.Head` | manage-tokens.php:133 | `substr($s, 0, n)` returns the first n characters of s, or all of s when it is shorter. |
| `ManageTokens.Tail` | manage-tokens.php:133 | `substr($s, -n)` returns the last n characters of s, or all of s when it is shorter. |
| `ManageTokens.Redact` | manage-tokens.php:133 | The listed form is the token's first 16 characters (all of it when shorter), then "...", then its last 8 characters (all of it when shorter). It has 27 characters once the token has 16 or more. |
| `ManageTokens.RedactionRevealsShortTokens` | manage-tokens.php:133 | A token of at most 24 characters can be rebuilt exactly from its listed form and its length. The length is needed: every token of 16 or more characters is listed as 27 characters. |
| `ManageTokens.RedactionHidesMiddle` | manage-tokens.php:133 | Two tokens over 24 characters with the same first 16 and last 8 characters are listed identically. |
| `ManageTokens.StrToLower` | manage-tokens.php:200 | Lowercasing keeps the length and maps every character through ASCII lowercasing. |
| `ManageTokens.ConfirmationAnswers` | manage-tokens.php:200 | `strtolower($confirm) === 's'` holds for exactly "s" and "S". |
| `ManageTokens.AddResult` | manage-tokens.php:141-178 | The token is the typed one, or the generated one when the typed one is PHP-empty. A duplicate token, an empty name or non-numeric days each leave the table unchanged, checked in that order. On success exactly one new key is added, with `expire = now + d*86400` and the given name, and every old entry is kept. |
| `ManageTokens.TokenStore.AddToken` | manage-tokens.php:141-178 | Updates the store in place and ends in the state and outcome `AddResult` gives. |
| `ManageTokens.RemoveResult` | manage-tokens.php:180-206 | An empty table, an absent key or an answer other than s/S leaves the table unchanged. Otherwise exactly that key is removed and every other entry is kept. |
| `ManageTokens.TokenStore.RemoveToken` | manage-tokens.php:180-206 | Updates the store in place and ends in the state and outcome `RemoveResult` gives. |
| `ManageTokens.UpdateResult` | manage-tokens.php:208-263 | Keys never change, and no record other than the selected one changes. Option 1 with a non-empty name changes only the name. Option 2 with numeric days sets `expire := (expire ?? 0) + d*86400`. Option 3 sets `expire := now + d*86400`. Any other option, non-numeric days or an absent key changes nothing. |
| `ManageTokens.TokenStore.UpdateToken` | manage-tokens.php:208-263 | Updates the store in place and ends in the state and outcome `UpdateResult` gives. |
| `ManageTokens.CollectExpired` | manage-tokens.php:269-274 | The first loop collects exactly the expired keys, each with its unchanged record. |
| `ManageTokens.CleanResult` | manage-tokens.php:265-297 | With no expired token, or with an answer other than s/S, the table is unchanged. Otherwise the result is the table restricted to the unexpired keys, and the reported count is the number of expired keys. |
| `ManageTokens.TokenStore.CleanExpiredTokens` | manage-tokens.php:265-297 | Collects the expired keys, unsets them one by one, and ends in the state and outcome `CleanResult` gives. |
| `ManageTokens.ShowStatistics` | manage-tokens.php:299-318 | `total` is the table size, `expired` equals the number of expired keys, and `active + expired == total`. The table is only read. |
| `ManageTokens.AddKeepsNamesPresent` | manage-tokens.php:156-173 | If no record has an empty client name before an add, none has one after it. |
| `ManageTokens.UpdateKeepsNamesPresent` | manage-tokens.php:234-240 | If no record has an empty client name before an update, none has one after it. |
| `ManageTokens.RemoveKeepsNamesPresent` | manage-tokens.php:200-201 | If no record has an empty client name before a remove, none has one after it. |
| `ManageTokens.CleanKeepsNamesPresent` | manage-tokens.php:289-292 | If no record has an empty client name before a cleanup, none has one after it. |
| `ManageTokens.RemoveUndoesAdd` | manage-tokens.php:168-201 | Removing a token just added, answering "s", restores the original table. |
| `ManageTokens.CleanIsIdempotent` | manage-tokens.php:269-292 | After a confirmed cleanup no token is expired at the same time, so a second cleanup finds nothing. |
| `ManageTokens.CleanRemovesExpiredCount` | manage-tokens.php:289-293 | A confirmed cleanup shrinks the table by exactly the number of expired tokens. |
| `ManageTokens.FreshTokenIsActive` | manage-tokens.php:168-173 | An added token with non-negative days and an expiry within the seconds range is not expired when it is added. |
| `ManageTokens.FarFutureTokenReadsExpired` | manage-tokens.php:168-173 | An added token whose expiry passes 9999999999, but stays below `1000 * now`, is expired when it is added. |
| `ManageTokens.ExtendingMillisecondExpiry` | manage-tokens.php:242-245 | Extending a millisecond expiry by `d` days moves the displayed instant by less than `d * 86.4 + 1` seconds. |
| `ManageTokens.CleanResultAsWritten` | manage-tokens.php:269-296 | The cleanup as written throws iff some expired record lacks `expire`. Otherwise it ends exactly like `CleanResult`. |
| `ManageTokens.CleanupAbortsOnMissingExpire` | manage-tokens.php:271-284 | When `now > 0`, any record without `expire` makes the cleanup as written throw. The corrected cleanup removes that record once confirmed. |
| `ManageTokens.LegacyRecordCleanup` | manage-tokens.php:271-291 | A concrete case: a one-record table whose record has no `expire`, with answer "s". As written the cleanup throws; corrected, it removes the record and reports 1. |
| `ManageTokens.PhpIntKeyExamples` | manage-tokens.php:127-133 | "123", "0" and "-7" become int keys of the PHP array, so the listing loop yields them as ints. "0123", "-0", "+5" and "12a" stay strings. |
| `ManageTokens.RemoveResultAsWritten` | manage-tokens.php:180-206 | Removal as written throws iff the table is non-empty and holds an integer-like token, because the listing at line 189 throws. Otherwise it ends exactly like `RemoveResult`. |
| `ManageTokens.UpdateResultAsWritten` | manage-tokens.php:208-263 | Update as written throws iff the table is non-empty and holds an integer-like token, because the listing at line 217 throws. Otherwise it ends exactly like `UpdateResult`. |
| `ManageTokens.IntegerTokenBlocksRemoveAndUpdate` | manage-tokens.php:127-133 | Once "123" is in the table, removing or updating any token throws as written. The corrected removal removes the token once confirmed. |

## Findings

| source | as written | input that shows it | evidently intended | confidence | as-written member | corrected member |
|---|---|---|---|---|---|---|
| manage-tokens.php:284 | The report of expired records calls `formatDate($data['expire'])` without the `?? 0` that the expiry test on line 271 uses. `formatDate` takes an `int`, so a record without `expire` throws a TypeError there, and the program ends before it asks for confirmation. | table `{"legacy": {"nameClient": "Alice"}}`, any `now > 0`, answer "s" | list the record as expiring at 0, the way `listTokens` does (line 129), and remove it on confirmation | high (not executed) | `ManageTokens.CleanResultAsWritten` (with `ManageTokens.CleanupAbortsOnMissingExpire`, `ManageTokens.LegacyRecordCleanup`) | `ManageTokens.CleanResult` (used by `ManageTokens.TokenStore.CleanExpiredTokens`) |
| manage-tokens.php:133 | PHP stores a token typed as a canonical decimal integer as an int array key. This happens on add (line 170) and again on every reload from the file. `foreach` in `listTokens` then yields the key as an int. Under `strict_types` (line 9), `substr($token, 0, 16)` throws a TypeError on it. `removeToken` and `updateToken` list the table before their prompts (lines 189 and 217). While the key is present, every remove and every update ends the program without saving. Only the cleanup (option 5) can remove it, once it has expired. | add token "123" (accepted at lines 145-173), then remove any token with answer "s" | list the key as a string (`(string)$token`) and go on with the remove or update | high (not executed) | `ManageTokens.RemoveResultAsWritten`, `ManageTokens.UpdateResultAsWritten` (with `ManageTokens.IntegerTokenBlocksRemoveAndUpdate`) | `ManageTokens.RemoveResult`, `ManageTokens.UpdateResult` (used by `ManageTokens.TokenStore.RemoveToken`, `ManageTokens.TokenStore.UpdateToken`) |

## Left out

- `loadTokens` / `saveTokens`: reading and writing the JSON file and creating its directory are file I/O plus a foreign JSON library. The table enters as the `TokenStore` constructor's argument. The save/load round trip is not modelled.
- `generateToken`: `md5(uniqid(rand()))` is randomness plus a foreign hash. The generated token is a parameter.
- `time()`: the clock is the parameter `now`. The source reads the clock again on every `isExpired` call, but the model uses one reading per operation.
- `date('Y-m-d H:i:s', ...)`: the date text is not modelled. Only the scale detection and the millisecond note are.
- `prompt`, the `print*` helpers, colour codes and all echoed text are terminal I/O. Outcomes stand for the messages.
- `listTokens`: the model covers only the redaction. Listing order is not modelled, because the table is a map rather than an ordered PHP array.
- The main `while (true)` menu loop, with its reload each iteration, save after options 2-5, and `exit(0)`, is I/O orchestration.
- Records whose `nameClient` is missing only change displayed text, so `nameClient` is always a string here. Records whose `expire` is not an integer make `formatDate` and `isExpired` throw under `strict_types` (lines 129-131). Entries that are not objects can come only from a hand-edited token file, and loading that file is not modelled, so they are outside the model. PHP would not reject them uniformly. The listing (lines 128-129) and the statistics (line 308) read such an entry through `??` as no name and `expire` 0, so it lists and counts as expired. A `null` entry is invisible to `isset` (lines 151, 193, 221), so add overwrites it and remove and update report it as not found. Only the cleanup report's `formatDate($data['expire'])` (line 284) and update's writes into a scalar entry (lines 237 and 245) fail.
- `ManageTokens.Redact`: redacts the token as a string. For an integer-like token, PHP hands `substr` an int key and throws instead (see Findings, `ManageTokens.RemoveResultAsWritten`). The listing screen of the main menu is not modelled at all.
- `ManageTokens.AddResult`: `now + d*86400` is unbounded. PHP turns a 64-bit overflow into a float.
- `ManageTokens.UpdateResult`: `expire + d*86400` is unbounded. PHP turns a 64-bit overflow into a float.
- `ManageTokens.IsExpired`, `ManageTokens.DisplayScale`: scale milliseconds by exact integer division, where both PHP functions write `(int)($x / 1000)`. PHP divides in floating point and then truncates. The two agree below about 9·10^15, where the float quotient can no longer round up to the next integer.
- `ManageTokens.StrToLower`, `ManageTokens.Head`, `ManageTokens.Tail`, `ManageTokens.Redact`: strings are sequences of bytes as characters, as PHP's `strtolower` and `substr` count them; a multi-byte UTF-8 character is several elements. `StrToLower` lowercases ASCII letters only, as `strtolower` does from PHP 8.2 on. Earlier versions follow the C locale.

=== FILE: manage_tokens.dfy ===
/**
 * The token table behind the interactive token manager: a map from token
 * string to a record holding an expiry timestamp and a client name, the rule
 * that decides whether a timestamp has passed (seconds or milliseconds), the
 * redacted form a token is listed under, and the four operations that change
 * the table (add, remove, update, clean expired) plus the statistics count.
 *
 * Every operator prompt is a parameter, and so are the current time and the
 * generated token.
 */
module ManageTokens {
  import opened Wrappers

  // ------------------------------------------------------------------ data

  /** The largest raw `expire` read as seconds (the largest ten-digit number);
      any larger value is read as milliseconds. */
  const MaxSecondsTimestamp: int := 9999999999

  /** Seconds added per day of validity (`24 * 60 * 60`). */
  const SecondsPerDay: int := 24 * 60 * 60

  /** One entry of the table. `expire` is None when the stored object has no
      `expire` field at all. */
  datatype Record = Record(expire: Option<int>, nameClient: string)

  type Table = map<string, Record>

  /** PHP's `empty()` applied to a string: true for "" and for "0". */
  predicate IsPhpEmpty(s: string) {
    s == "" || s == "0"
  }

  /** `$data['expire'] ?? 0`. */
  function ExpireOrZero(r: Record): int {
    match r.expire
    case Some(e) => e
    case None => 0
  }

  // ---------------------------------------------------------------- expiry

  /** Whether a stored timestamp lies before `now` (epoch seconds). A value
      above the ten-digit limit is read as milliseconds and truncated to
      seconds; the division only ever sees positive values, where Dafny's
      division and truncation toward zero agree. */
  function IsExpired(expire: int, now: int): (expired: bool)
    ensures expire <= MaxSecondsTimestamp ==> (expired <==> expire < now)
    ensures expire > MaxSecondsTimestamp ==> (expired <==> expire < 1000 * now)
  {
    var seconds := if expire > MaxSecondsTimestamp then expire / 1000 else expire;
    seconds < now
  }

  /** The instant the date formatter displays, and whether it annotates the
      date as read from a millisecond timestamp. */
  datatype DisplayTime = DisplayTime(seconds: int, inMilliseconds: bool)

  /** The scale detection of the date formatter (the date text itself is not
      modelled). */
  function DisplayScale(timestamp: int): (d: DisplayTime)
    ensures d.inMilliseconds <==> timestamp > MaxSecondsTimestamp
    ensures !d.inMilliseconds ==> d.seconds == timestamp
    ensures d.inMilliseconds ==> 1000 * d.seconds <= timestamp < 1000 * d.seconds + 1000
  {
    if timestamp > MaxSecondsTimestamp then DisplayTime(timestamp / 1000, true)
    else DisplayTime(timestamp, false)
  }

  /** The formatter and the expiry test read every timestamp on the same scale. */
  lemma SameScaleRule(expire: int, now: int)
    ensures IsExpired(expire, now) <==> DisplayScale(expire).seconds < now
  {
  }

  /** 9999999999 is still seconds; 10000000000 is the first millisecond value. */
  lemma ScaleThreshold(now: int)
    ensures DisplayScale(9999999999) == DisplayTime(9999999999, false)
    ensures DisplayScale(10000000000) == DisplayTime(10000000, true)
    ensures IsExpired(9999999999, now) <==> 9999999999 < now
    ensures IsExpired(10000000000, now) <==> 10000000 < now
  {
  }

  /** The scale switch makes expiry non-monotonic in the raw value: one unit
      past the limit a timestamp reads as 1970 and is expired at any present
      time, while the limit itself is still in the future. */
  lemma ScaleDiscontinuity(now: int)
    requires 10000000 < now <= MaxSecondsTimestamp
    ensures IsExpired(MaxSecondsTimestamp + 1, now)
    ensures !IsExpired(MaxSecondsTimestamp, now)
  {
  }

  /** Once expired, a timestamp stays expired as the clock advances. */
  lemma ExpiryIsPermanent(expire: int, now: int, later: int)
    requires now <= later
    ensures IsExpired(expire, now) ==> IsExpired(expire, later)
  {
  }

  // ------------------------------------------------------------- redaction

  function Min(a: int, b: int): int {
    if a <= b then a else b
  }

  /** `substr($s, 0, n)`: the first n characters, or all of s when shorter. */
  function Head(s: string, n: nat): (h: string)
    ensures |h| == Min(n, |s|)
    ensures forall i :: 0 <= i < |h| ==> h[i] == s[i]
  {
    s[..Min(n, |s|)]
  }

  /** `substr($s, -n)`: the last n characters, or all of s when shorter. */
  function Tail(s: string, n: nat): (t: string)
    ensures |t| == Min(n, |s|)
    ensures forall i :: 0 <= i < |t| ==> t[i] == s[|s| - |t| + i]
  {
    s[|s| - Min(n, |s|)..]
  }

  /** How a token is listed: its first 16 characters, "...", its last 8. */
  function Redact(token: string): (shown: string)
    ensures |shown| == Min(16, |token|) + 3 + Min(8, |token|)
    ensures |token| >= 16 ==> |shown| == 27
    ensures forall i :: 0 <= i < Min(16, |token|) ==> shown[i] == token[i]
    ensures shown[Min(16, |token|)..Min(16, |token|) + 3] == "..."
    ensures shown[Min(16, |token|) + 3..] == token[|token| - Min(8, |token|)..]
  {
    Head(token, 16) + "..." + Tail(token, 8)
  }

  /** Reassembles a token of known length from its listed form; it succeeds
      whenever that length is at most 24 (see RedactionRevealsShortTokens). */
  function Unredact(shown: string, length: nat): string
    requires |shown| >= 3 + Min(16, length) + Min(8, length)
    requires length <= 24
  {
    shown[..Min(16, length)] + shown[|shown| - (length - Min(16, length))..]
  }

  /** A token of at most 24 characters is shown in full: the prefix and the
      suffix together cover it. */
  lemma RedactionRevealsShortTokens(token: string)
    requires |token| <= 24
    ensures Unredact(Redact(token), |token|) == token
  {
  }

  /** Above 24 characters the middle is never shown: two tokens that share
      their first 16 and their last 8 characters are listed alike. */
  lemma RedactionHidesMiddle(token: string, other: string)
    requires |token| > 24 && |other| > 24
    requires token[..16] == other[..16]
    requires token[|token| - 8..] == other[|other| - 8..]
    ensures Redact(token) == Redact(other)
  {
  }

  // ----------------------------------------------------------- confirmation

  /** `strtolower` on one character (ASCII letters only). */
  function LowerAscii(c: char): char {
    if 'A' <= c <= 'Z' then (c as int + 32) as char else c
  }

  /** `strtolower` on a string. */
  function StrToLower(s: string): (lower: string)
    ensures |lower| == |s|
    ensures forall i :: 0 <= i < |s| ==> lower[i] == LowerAscii(s[i])
  {
    if s == [] then [] else [LowerAscii(s[0])] + StrToLower(s[1..])
  }

  /** `strtolower($confirm) === 's'`: the operator's answer to "(s/n)". */
  predicate Confirms(answer: string) {
    StrToLower(answer) == "s"
  }

  /** Exactly two answers confirm: "s" and "S". */
  lemma ConfirmationAnswers(answer: string)
    ensures Confirms(answer) <==> answer == "s" || answer == "S"
  {
  }

  // ----------------------------------------------------------- operations

  /** What an operation reports, paired with the table it leaves. */
  datatype Step<O> = Step(outcome: O, table: Table)

  datatype AddOutcome =
    | Added(token: string)
    | DuplicateToken(token: string)
    | NameRequired
    | InvalidDays

  /** The token an add operation works on: the typed one, or the generated
      one when the typed one is PHP-empty. */
  function ChosenToken(input: string, generated: string): string
  {
    if IsPhpEmpty(input) then generated else input
  }

  /** Adding a token. `days` is None when the answer is not numeric and
      otherwise the integer PHP casts it to (negative values included). */
  function AddResult(t: Table, input: string, generated: string, name: string, days: Option<int>, now: int): (r: Step<AddOutcome>)
    ensures r.outcome.Added? <==> ChosenToken(input, generated) !in t && !IsPhpEmpty(name) && days.Some?
    ensures r.outcome.DuplicateToken? <==> ChosenToken(input, generated) in t
    ensures r.outcome == NameRequired <==> ChosenToken(input, generated) !in t && IsPhpEmpty(name)
    ensures !r.outcome.Added? ==> r.table == t
    ensures r.outcome.Added? ==>
      && days.Some?
      && r.outcome.token == ChosenToken(input, generated)
      && r.table.Keys == t.Keys + {r.outcome.token}
      && r.table[r.outcome.token] == Record(Some(now + days.value * SecondsPerDay), name)
      && (forall k :: k in t ==> r.table[k] == t[k])
  {
    var token := ChosenToken(input, generated);
    if token in t then Step(DuplicateToken(token), t)
    else if IsPhpEmpty(name) then Step(NameRequired, t)
    else if days.None? then Step(InvalidDays, t)
    else Step(Added(token), t[token := Record(Some(now + days.value * SecondsPerDay), name)])
  }

  datatype RemoveOutcome = NothingToRemove | RemoveNotFound | RemoveCancelled | Removed

  /** Removing the token `key` after the operator answered `answer`. */
  function RemoveResult(t: Table, key: string, answer: string): (r: Step<RemoveOutcome>)
    ensures r.outcome == NothingToRemove <==> t == map[]
    ensures r.outcome == RemoveNotFound <==> t != map[] && key !in t
    ensures r.outcome == Removed <==> key in t && Confirms(answer)
    ensures r.outcome != Removed ==> r.table == t
    ensures r.outcome == Removed ==>
      && r.table.Keys == t.Keys - {key}
      && (forall k :: k in r.table ==> r.table[k] == t[k])
  {
    if t == map[] then Step(NothingToRemove, t)
    else if key !in t then Step(RemoveNotFound, t)
    else if Confirms(answer) then Step(Removed, t - {key})
    else Step(RemoveCancelled, t)
  }

  datatype UpdateChoice = RenameClient | ExtendValidity | ResetExpiry | UnknownChoice

  /** The update menu's `switch`. PHP compares the answer loosely with '1',
      '2' and '3', so any numeric spelling of those values ("01", "1.0",
      "1e0") selects the case. `option` is the number PHP reads from the
      answer, None when the answer is not numeric. */
  function SelectUpdateChoice(option: Option<real>): UpdateChoice {
    match option
    case None => UnknownChoice
    case Some(v) =>
      if v == 1.0 then RenameClient
      else if v == 2.0 then ExtendValidity
      else if v == 3.0 then ResetExpiry
      else UnknownChoice
  }

  datatype UpdateOutcome =
    | NothingToUpdate
    | UpdateNotFound
    | NameChanged
    | NameIgnored
    | ExpiryExtended
    | ExpiryReset
    | DaysIgnored
    | InvalidOption

  /** Updating the token `key`: rename its client, extend its expiry by
      `days` days, or set its expiry to `days` days from now. */
  function UpdateResult(t: Table, key: string, option: Option<real>, newName: string, days: Option<int>, now: int): (r: Step<UpdateOutcome>)
    ensures r.outcome == NothingToUpdate <==> t == map[]
    ensures r.outcome == UpdateNotFound <==> t != map[] && key !in t
    ensures key !in t ==> r.table == t
    ensures r.table.Keys == t.Keys
    ensures forall k :: k in t && k != key ==> r.table[k] == t[k]
    ensures r.outcome == InvalidOption <==> key in t && SelectUpdateChoice(option) == UnknownChoice
    ensures r.outcome == NameChanged <==> key in t && SelectUpdateChoice(option) == RenameClient && !IsPhpEmpty(newName)
    ensures r.outcome == ExpiryExtended <==> key in t && SelectUpdateChoice(option) == ExtendValidity && days.Some?
    ensures r.outcome == ExpiryReset <==> key in t && SelectUpdateChoice(option) == ResetExpiry && days.Some?
    ensures key in t ==> r.table[key].nameClient == (if r.outcome == NameChanged then newName else t[key].nameClient)
    ensures r.outcome == ExpiryExtended ==>
      days.Some? && r.table[key].expire == Some(ExpireOrZero(t[key]) + days.value * SecondsPerDay)
    ensures r.outcome == ExpiryReset ==>
      days.Some? && r.table[key].expire == Some(now + days.value * SecondsPerDay)
    ensures key in t && r.outcome != ExpiryExtended && r.outcome != ExpiryReset ==>
      r.table[key].expire == t[key].expire
  {
    if t == map[] then Step(NothingToUpdate, t)
    else if key !in t then Step(UpdateNotFound, t)
    else
      var prev := t[key];
      match SelectUpdateChoice(option)
      case RenameClient =>
        if IsPhpEmpty(newName) then Step(NameIgnored, t)
        else Step(NameChanged, t[key := prev.(nameClient := newName)])
      case ExtendValidity =>
        if days.None? then Step(DaysIgnored, t)
        else Step(ExpiryExtended, t[key := prev.(expire := Some(ExpireOrZero(prev) + days.value * SecondsPerDay))])
      case ResetExpiry =>
        if days.None? then Step(DaysIgnored, t)
        else Step(ExpiryReset, t[key := prev.(expire := Some(now + days.value * SecondsPerDay))])
      case UnknownChoice => Step(InvalidOption, t)
  }

  /** The tokens whose expiry (0 when absent) lies before `now`. */
  function ExpiredKeys(t: Table, now: int): set<string> {
    set k | k in t && IsExpired(ExpireOrZero(t[k]), now)
  }

  datatype CleanOutcome = NoExpiredTokens | CleanCancelled | ExpiredRemoved(count: nat)

  /** Removing every expired token in one confirmed batch. */
  function CleanResult(t: Table, answer: string, now: int): (r: Step<CleanOutcome>)
    ensures r.outcome == NoExpiredTokens <==> ExpiredKeys(t, now) == {}
    ensures r.outcome.ExpiredRemoved? <==> ExpiredKeys(t, now) != {} && Confirms(answer)
    ensures !r.outcome.ExpiredRemoved? ==> r.table == t
    ensures r.outcome.ExpiredRemoved? ==>
      && r.outcome.count == |ExpiredKeys(t, now)|
      && (forall k :: k in r.table <==> k in t && !IsExpired(ExpireOrZero(t[k]), now))
      && (forall k :: k in r.table ==> r.table[k] == t[k])
  {
    var expired := ExpiredKeys(t, now);
    if expired == {} then Step(NoExpiredTokens, t)
    else if Confirms(answer) then Step(ExpiredRemoved(|expired|), t - expired)
    else Step(CleanCancelled, t)
  }

  /** The counts the statistics screen shows. */
  datatype Statistics = Statistics(total: nat, active: nat, expired: nat)

  /** Counts active and expired tokens in one pass over the table. */
  method ShowStatistics(t: Table, now: int) returns (stats: Statistics)
    ensures stats.total == |t|
    ensures stats.expired == |ExpiredKeys(t, now)|
    ensures stats.active + stats.expired == stats.total
  {
    var active, expired := 0, 0;
    var rest := t.Keys;
    ghost var seen: set<string> := {};
    while rest != {}
      invariant rest <= t.Keys
      invariant seen == ExpiredKeys(t, now) - rest
      invariant expired == |seen|
      invariant active + expired + |rest| == |t.Keys|
      decreases rest
    {
      var k :| k in rest;
      if IsExpired(ExpireOrZero(t[k]), now) {
        expired := expired + 1;
        seen := seen + {k};
      } else {
        active := active + 1;
      }
      rest := rest - {k};
    }
    assert |t| == |t.Keys|;
    stats := Statistics(|t|, active, expired);
  }

  /** The first pass of the cleanup: copies every expired record into a map
      of its own. */
  method CollectExpired(t: Table, now: int) returns (expired: Table)
    ensures expired.Keys == ExpiredKeys(t, now)
    ensures forall k :: k in expired ==> expired[k] == t[k]
  {
    expired := map[];
    var rest := t.Keys;
    while rest != {}
      invariant rest <= t.Keys
      invariant expired.Keys == ExpiredKeys(t, now) - rest
      invariant forall k :: k in expired ==> expired[k] == t[k]
      decreases rest
    {
      var k :| k in rest;
      if IsExpired(ExpireOrZero(t[k]), now) {
        expired := expired[k := t[k]];
      }
      rest := rest - {k};
    }
  }

  // -------------------------------------------------------------- the store

  /** The working copy of the table that every operation receives by
      reference. */
  class TokenStore {
    var tokens: Table

    constructor (loaded: Table)
      ensures tokens == loaded
    {
      tokens := loaded;
    }

    method AddToken(input: string, generated: string, name: string, days: Option<int>, now: int) returns (outcome: AddOutcome)
      modifies this
      ensures Step(outcome, tokens) == AddResult(old(tokens), input, generated, name, days, now)
    {
      var token := input;
      if IsPhpEmpty(token) {
        token := generated;
      }
      if token in tokens {
        return DuplicateToken(token);
      }
      if IsPhpEmpty(name) {
        return NameRequired;
      }
      if days.None? {
        return InvalidDays;
      }
      tokens := tokens[token := Record(Some(now + days.value * SecondsPerDay), name)];
      outcome := Added(token);
    }

    method RemoveToken(key: string, answer: string) returns (outcome: RemoveOutcome)
      modifies this
      ensures Step(outcome, tokens) == RemoveResult(old(tokens), key, answer)
    {
      if tokens == map[] {
        return NothingToRemove;
      }
      if key !in tokens {
        return RemoveNotFound;
      }
      if Confirms(answer) {
        tokens := tokens - {key};
        outcome := Removed;
      } else {
        outcome := RemoveCancelled;
      }
    }

    method UpdateToken(key: string, option: Option<real>, newName: string, days: Option<int>, now: int) returns (outcome: UpdateOutcome)
      modifies this
      ensures Step(outcome, tokens) == UpdateResult(old(tokens), key, option, newName, days, now)
    {
      if tokens == map[] {
        return NothingToUpdate;
      }
      if key !in tokens {
        return UpdateNotFound;
      }
      var choice := SelectUpdateChoice(option);
      match choice {
        case RenameClient =>
          if IsPhpEmpty(newName) {
            outcome := NameIgnored;
          } else {
            tokens := tokens[key := tokens[key].(nameClient := newName)];
            outcome := NameChanged;
          }
        case ExtendValidity =>
          if days.None? {
            outcome := DaysIgnored;
          } else {
            var extended := ExpireOrZero(tokens[key]) + days.value * SecondsPerDay;
            tokens := tokens[key := tokens[key].(expire := Some(extended))];
            outcome := ExpiryExtended;
          }
        case ResetExpiry =>
          if days.None? {
            outcome := DaysIgnored;
          } else {
            tokens := tokens[key := tokens[key].(expire := Some(now + days.value * SecondsPerDay))];
            outcome := ExpiryReset;
          }
        case UnknownChoice =>
          outcome := InvalidOption;
      }
    }

    /** Collects the expired records, then, on confirmation, unsets them one
        by one. */
    method CleanExpiredTokens(answer: string, now: int) returns (outcome: CleanOutcome)
      modifies this
      ensures Step(outcome, tokens) == CleanResult(old(tokens), answer, now)
    {
      var expired := CollectExpired(tokens, now);
      if expired == map[] {
        return NoExpiredTokens;
      }
      if !Confirms(answer) {
        return CleanCancelled;
      }
      var pending := expired.Keys;
      while pending != {}
        invariant pending <= expired.Keys
        invariant tokens == old(tokens) - (expired.Keys - pending)
        decreases pending
      {
        var k :| k in pending;
        tokens := tokens - {k};
        pending := pending - {k};
      }
      outcome := ExpiredRemoved(|expired.Keys|);
    }
  }

  // ------------------------------------------------------ table invariants

  /** No stored record has a PHP-empty client name. */
  ghost predicate NamesPresent(t: Table) {
    forall k :: k in t ==> !IsPhpEmpty(t[k].nameClient)
  }

  lemma AddKeepsNamesPresent(t: Table, input: string, generated: string, name: string, days: Option<int>, now: int)
    requires NamesPresent(t)
    ensures NamesPresent(AddResult(t, input, generated, name, days, now).table)
  {
  }

  lemma UpdateKeepsNamesPresent(t: Table, key: string, option: Option<real>, newName: string, days: Option<int>, now: int)
    requires NamesPresent(t)
    ensures NamesPresent(UpdateResult(t, key, option, newName, days, now).table)
  {
  }

  lemma RemoveKeepsNamesPresent(t: Table, key: string, answer: string)
    requires NamesPresent(t)
    ensures NamesPresent(RemoveResult(t, key, answer).table)
  {
  }

  lemma CleanKeepsNamesPresent(t: Table, answer: string, now: int)
    requires NamesPresent(t)
    ensures NamesPresent(CleanResult(t, answer, now).table)
  {
  }

  // ---------------------------------------------------- cross-operation laws

  /** Removing a token just added, with confirmation, restores the table. */
  lemma RemoveUndoesAdd(t: Table, input: string, generated: string, name: string, days: Option<int>, now: int)
    requires AddResult(t, input, generated, name, days, now).outcome.Added?
    ensures var added := AddResult(t, input, generated, name, days, now);
      RemoveResult(added.table, added.outcome.token, "s") == Step(Removed, t)
  {
  }

  /** A confirmed cleanup leaves nothing for a second one at the same time. */
  lemma CleanIsIdempotent(t: Table, answer: string, now: int)
    requires Confirms(answer)
    ensures ExpiredKeys(CleanResult(t, answer, now).table, now) == {}
    ensures CleanResult(CleanResult(t, answer, now).table, answer, now).outcome == NoExpiredTokens
  {
  }

  /** The cleanup removes exactly as many tokens as the statistics count as
      expired, and keeps the active ones. */
  lemma CleanRemovesExpiredCount(t: Table, answer: string, now: int)
    requires ExpiredKeys(t, now) != {} && Confirms(answer)
    ensures |CleanResult(t, answer, now).table| == |t| - |ExpiredKeys(t, now)|
  {
  }

  /** A token added for a non-negative number of days whose expiry stays in
      the seconds range is active at the moment it is added. */
  lemma FreshTokenIsActive(t: Table, input: string, generated: string, name: string, days: Option<int>, now: int)
    requires AddResult(t, input, generated, name, days, now).outcome.Added?
    requires days.Some? && days.value >= 0
    requires now + days.value * SecondsPerDay <= MaxSecondsTimestamp
    ensures var r := AddResult(t, input, generated, name, days, now);
      !IsExpired(ExpireOrZero(r.table[r.outcome.token]), now)
  {
  }

  /** A token added so far ahead that its expiry passes the ten-digit limit
      is read as milliseconds and so lists as expired straight away. */
  lemma FarFutureTokenReadsExpired(t: Table, input: string, generated: string, name: string, days: Option<int>, now: int)
    requires AddResult(t, input, generated, name, days, now).outcome.Added?
    requires days.Some?
    requires MaxSecondsTimestamp < now + days.value * SecondsPerDay < 1000 * now
    ensures var r := AddResult(t, input, generated, name, days, now);
      IsExpired(ExpireOrZero(r.table[r.outcome.token]), now)
  {
  }

  /** Extending a millisecond expiry by `d` days adds `d * 86400` to a
      millisecond count, so the instant it stands for moves by less than
      `d * 86.4 + 1` seconds rather than by `d` days. */
  lemma ExtendingMillisecondExpiry(t: Table, key: string, days: Option<int>, now: int)
    requires key in t && t[key].expire.Some? && t[key].expire.value > MaxSecondsTimestamp
    requires days.Some? && days.value >= 0
    ensures var r := UpdateResult(t, key, Some(2.0), "", days, now);
      && r.outcome == ExpiryExtended
      && 1000 * (DisplayScale(ExpireOrZero(r.table[key])).seconds - DisplayScale(ExpireOrZero(t[key])).seconds)
         < days.value * SecondsPerDay + 1000
  {
  }

  // ---------------------------------------------------------------- finding

  /** How a run of an operation ends: normally, or with an uncaught
      TypeError, which ends the program before anything is saved. */
  datatype Run<T> = Completed(value: T) | TypeErrorThrown

  /** The cleanup as written: the expired test reads `expire ?? 0`, but the
      report of each expired record hands the raw field to the formatter,
      which accepts only an int. */
  function CleanResultAsWritten(t: Table, answer: string, now: int): (r: Run<Step<CleanOutcome>>)
    ensures r == TypeErrorThrown <==> exists k :: k in ExpiredKeys(t, now) && t[k].expire.None?
    ensures r.Completed? ==> r.value == CleanResult(t, answer, now)
  {
    var expired := ExpiredKeys(t, now);
    if expired == {} then Completed(Step(NoExpiredTokens, t))
    else if exists k :: k in expired && t[k].expire.None? then TypeErrorThrown
    else if Confirms(answer) then Completed(Step(ExpiredRemoved(|expired|), t - expired))
    else Completed(Step(CleanCancelled, t))
  }

  /** At any time after the epoch, one record without `expire` makes the
      cleanup as written abort before asking for confirmation, while the
      corrected cleanup removes that record. */
  lemma CleanupAbortsOnMissingExpire(t: Table, key: string, answer: string, now: int)
    requires key in t && t[key].expire.None? && now > 0
    ensures CleanResultAsWritten(t, answer, now) == TypeErrorThrown
    ensures Confirms(answer) ==> key !in CleanResult(t, answer, now).table
  {
  }

  /** A concrete case: one legacy record, answer "s". */
  lemma LegacyRecordCleanup()
    ensures CleanResultAsWritten(map["legacy" := Record(None, "Alice")], "s", 1700000000) == TypeErrorThrown
    ensures CleanResult(map["legacy" := Record(None, "Alice")], "s", 1700000000) == Step(ExpiredRemoved(1), map[])
  {
    var t := map["legacy" := Record(None, "Alice")];
    assert ExpiredKeys(t, 1700000000) == {"legacy"};
    ConfirmationAnswers("s");
    CleanupAbortsOnMissingExpire(t, "legacy", "s", 1700000000);
    assert CleanResult(t, "s", 1700000000).table == map[];
  }

  // ------------------------------------------------------ integer-like keys

  predicate IsDigit(c: char) {
    '0' <= c <= '9'
  }

  predicate AllDigits(s: string) {
    forall i :: 0 <= i < |s| ==> IsDigit(s[i])
  }

  /** The value of a string of decimal digits. */
  function DecimalValue(digits: string): nat
    requires AllDigits(digits)
  {
    if digits == [] then 0
    else
      var last := digits[|digits| - 1];
      assert IsDigit(last);
      10 * DecimalValue(digits[..|digits| - 1]) + (last as int - '0' as int)
  }

  /** Whether PHP stores the string as an int array key: a decimal integer
      without a leading zero or "+" (and not "-0") that fits in 64 bits. */
  predicate IsPhpIntKey(k: string) {
    var negative := |k| > 0 && k[0] == '-';
    var digits := if negative then k[1..] else k;
    && |digits| > 0
    && AllDigits(digits)
    && (digits[0] != '0' || (digits == "0" && !negative))
    && DecimalValue(digits) <= (if negative then 9223372036854775808 else 9223372036854775807)
  }

  /** Which strings become int keys: "123", "0" and "-7" do; "0123", "-0",
      "+5" and "12a" stay strings. */
  lemma PhpIntKeyExamples()
    ensures IsPhpIntKey("123") && IsPhpIntKey("0") && IsPhpIntKey("-7")
    ensures !IsPhpIntKey("0123") && !IsPhpIntKey("-0") && !IsPhpIntKey("+5") && !IsPhpIntKey("12a")
  {
    assert "12"[..1] == "1" && "123"[..2] == "12";
    assert DecimalValue("123") == 123;
    assert "-7"[1..] == "7" && "-0"[1..] == "0";
    assert DecimalValue("7") == 7;
    assert AllDigits("0");
    assert "+5"[0] == '+' && !AllDigits("+5");
    assert "12a"[2] == 'a' && !AllDigits("12a");
  }

  /** Listing the table throws: an integer-like token comes out of `foreach`
      as an int, and `substr` rejects an int under strict types. */
  predicate ListingThrows(t: Table) {
    exists k :: k in t && IsPhpIntKey(k)
  }

  /** Removal as written: the table is listed before the prompt, so a table
      holding an integer-like token ends the program there. */
  function RemoveResultAsWritten(t: Table, key: string, answer: string): (r: Run<Step<RemoveOutcome>>)
    ensures r == TypeErrorThrown <==> t != map[] && ListingThrows(t)
    ensures r.Completed? ==> r.value == RemoveResult(t, key, answer)
  {
    if t == map[] then Completed(Step(NothingToRemove, t))
    else if ListingThrows(t) then TypeErrorThrown
    else if key !in t then Completed(Step(RemoveNotFound, t))
    else if Confirms(answer) then Completed(Step(Removed, t - {key}))
    else Completed(Step(RemoveCancelled, t))
  }

  /** Update as written: the same listing precedes the prompt. */
  function UpdateResultAsWritten(t: Table, key: string, option: Option<real>, newName: string, days: Option<int>, now: int): (r: Run<Step<UpdateOutcome>>)
    ensures r == TypeErrorThrown <==> t != map[] && ListingThrows(t)
    ensures r.Completed? ==> r.value == UpdateResult(t, key, option, newName, days, now)
  {
    if t == map[] then Completed(Step(NothingToUpdate, t))
    else if ListingThrows(t) then TypeErrorThrown
    else Completed(UpdateResult(t, key, option, newName, days, now))
  }

  /** Once a token such as "123" has been added, removing or updating any
      other token ends the program, while the corrected operations go ahead. */
  lemma IntegerTokenBlocksRemoveAndUpdate(t: Table, key: string, answer: string, option: Option<real>, newName: string, days: Option<int>, now: int)
    requires "123" in t && key in t && Confirms(answer)
    ensures RemoveResultAsWritten(t, key, answer) == TypeErrorThrown
    ensures UpdateResultAsWritten(t, key, option, newName, days, now) == TypeErrorThrown
    ensures RemoveResult(t, key, answer).outcome == Removed
  {
    PhpIntKeyExamples();
  }
}

=== FILE: wrappers.dfy ===
/** The optional-value datatype used for fields that may be absent and for prompt answers that may not parse. */
module Wrappers {

  datatype Option<+T> = None | Some(value: T)

}
